=== FILE: README.md ===
# Inbucket file store: a Dafny model

This project models the deterministic core of Inbucket's file-backed message
store, `pkg/storage/file/fstore.go`. It covers four parts:

- **Message IDs.** The store's message IDs are the wall-clock second in the
  layout `20060102T150405`, a dash, and a four-digit counter value. The counter
  is produced by a process-wide generator that cycles through 0..9999.
- **Shard paths.** A mailbox named by hash `h` lives in the directory
  `mail/h[0:3]/h[0:6]/h` and keeps its index file `index.gob` there. Its lock
  is keyed by `h`.
- **`AddMessage`.** This is a state machine over an abstract filesystem: a map
  from path to directory, raw file or index snapshot. Each fallible step takes
  its outcome from an injected flag, and every failure after the raw file
  exists removes that file again.
- **`VisitMailboxes`.** This walks the three-level shard tree. Directory
  listings, index loads and the visitor's answers are inputs.

The modules follow those parts:

| file | module | what it holds |
|---|---|---|
| `results.dfy` | `Results` | `Option` and `Result` |
| `decimal.dfy` | `Decimal` | zero-padded decimal rendering (`%0Nd`) and its parse |
| `count_gen.dfy` | `CountGen` | the counter values `countGenerator` emits |
| `message_id.dfy` | `MessageIds` | `generatePrefix`, `generateID`, and their parsers |
| `shards.dfy` | `Shards` | `mbox`, `mboxFromHash`, and path decomposition |
| `file_store.dfy` | `FileStore` | `AddMessage` and the mailbox's on-disk invariant |
| `traversal.dfy` | `Traversal` | `VisitMailboxes` and its reference run |

Each operation comes with an independent description of its result:

- The ID text has a parser, and the round trip recovers the second and the
  counter value.
- Mailbox paths have a decomposer. It reads the hash, both shard prefixes and
  the mail root back out of a path.
- `AddMessage` preserves an invariant over the filesystem, provided the ID it
  mints is not already listed in the mailbox: a mailbox's directory holds a
  raw file for exactly the records its index lists. A separate lemma shows
  what happens on an ID collision.
- The nested-loop walk is proved equal to a run over the tree flattened in
  listing order. That run is characterised by lemmas of its own.

Foreign collaborators are parameters: the mailbox-name policy (`parse`), the
name hash (`hash`), the wall clock (`now`), the step outcomes (`Steps`), the
index loader (`load`) and the visitor (`visit`). The visitor is a function of
all the lists passed to it so far, so a visitor with state is covered.

## Model

| member | source | states |
|---|---|---|
| `CountGen.Successor` | pkg/storage/file/fstore.go:36 | the loop step is a counter value; below 9999 it adds one, and 9999 is followed by 0 |
| `CountGen.EmittedIsMod` | pkg/storage/file/fstore.go:35-39 | the k-th value the generator emits, starting from 0, is k mod 10000 |
| `CountGen.EmittedDistinctWithinCycle` | pkg/storage/file/fstore.go:36 | any 10000 consecutive emitted values are pairwise distinct |
| `CountGen.EmittedPeriodic` | pkg/storage/file/fstore.go:36 | the emitted values repeat with period 10000 |
| `CountGen.Take` | pkg/storage/file/fstore.go:26-39 | taking n values from a generator whose next value is `from` yields (from + k) mod 10000 in order, and leaves (from + n) mod 10000 next |
| `Decimal.ZeroPad` | pkg/storage/file/fstore.go:263 | `%04d` output is all digits and at least the requested width |
| `Decimal.ZeroPadWidth` | pkg/storage/file/fstore.go:263 | a counter value below 10^w renders in exactly w characters |
| `Decimal.ParseZeroPad` | pkg/storage/file/fstore.go:263 | reading the zero-padded digits back gives the number rendered |
| `Decimal.ZeroPadInjective` | pkg/storage/file/fstore.go:263 | distinct numbers render to distinct texts |
| `MessageIds.FormatStamp` | pkg/storage/file/fstore.go:256-258 | the prefix is digits with a single 'T' seven characters from the end, and it is 15 characters long for years below 10000 |
| `MessageIds.StampRoundTrip` | pkg/storage/file/fstore.go:253-258 | parsing a formatted prefix gives back the year, month, day, hour, minute and second |
| `MessageIds.IdText` | pkg/storage/file/fstore.go:262-264 | an ID is the prefix, then '-', then digits, five characters longer than the prefix |
| `MessageIds.IdRoundTrip` | pkg/storage/file/fstore.go:262-264 | splitting an ID gives back the prefix and the counter value |
| `MessageIds.GenerateId` | pkg/storage/file/fstore.go:260-264 | an ID decodes to the time and counter value it was minted from, matches `^\d{8}T\d{6}-\d{4}$` before year 10000, has no path separator, and the generator advances by one step |
| `MessageIds.IdTextInjective` | pkg/storage/file/fstore.go:263 | an ID text determines the prefix and the counter value it was built from |
| `MessageIds.GenerateIdInjective` | pkg/storage/file/fstore.go:260-264 | two IDs are equal only when the second and the counter value are equal |
| `MessageIds.ConsecutiveIdsDistinct` | pkg/storage/file/fstore.go:262-264 | IDs with the same prefix (minted in the same second) from counter values taken fewer than 10000 apart differ |
| `Shards.FromHash` | pkg/storage/file/fstore.go:238-251 | the descriptor of the directory named by the hash has no name, uses the hash as directory name and lock key, and has a path under the mail root |
| `Shards.MailboxLayout` | pkg/storage/file/fstore.go:223-227 | the path reads back as mail root / first 3 hash characters / first 6 hash characters / hash; the index is `index.gob` directly inside; the shards nest as prefixes |
| `Shards.LockSharedIffSameDirectory` | pkg/storage/file/fstore.go:226-229 | two mailboxes share a lock key exactly when they share a directory |
| `Shards.Resolve` | pkg/storage/file/fstore.go:217-236 | resolution fails exactly when the name policy rejects the name, and passes its error through; otherwise the canonical name is kept, and path, index path, directory name and lock key agree with `mboxFromHash` of the name's hash |
| `FileStore.WriteMessage` | pkg/storage/file/fstore.go:84-125 | the first failing step among createDir, create, copy, flush, close and writeIndex names the error, and the call succeeds exactly when none fails; a createDir failure changes nothing; once createDir succeeds the three shard directories exist; a failure up to create keeps every existing file and adds only directories; any failure keeps every existing file but the raw one, so the index is never rewritten on failure, and any later failure leaves no raw file; success returns the ID, appends the one record (with the message's date, sender, recipients, subject and byte count), and writes the raw content and the whole index; nothing outside the raw file and index is replaced |
| `FileStore.AddMessage` | pkg/storage/file/fstore.go:67-126 | the ID is empty exactly on error; a policy rejection is reported with its reason; otherwise the first failing step, from Source through writeIndex, names the error, and the call succeeds exactly when the name is accepted and no step fails; failures before minting change nothing; once createDir succeeds the shard directories the name hashes to exist; a failed call keeps every existing file but the minted ID's raw file, so the index is left as it was; early failures add only directories; late failures remove the raw file; only a failed index write changes the in-memory list without success; success returns an ID decoding to (now, counter), appends exactly one record carrying that ID, and leaves the raw content and an index holding the new list in the directory the name hashes to |
| `FileStore.CommitKeepsConsistent` | pkg/storage/file/fstore.go:114-125 | writing the raw file and then the index with the appended record keeps the on-disk invariant, and the index then equals the new list |
| `FileStore.WriteKeepsConsistent` | pkg/storage/file/fstore.go:94-124 | whichever step fails, the mailbox directory still holds raw files for exactly the indexed records, given a fresh ID; after a failed index write the in-memory list is one record ahead of the index, and that record's raw file is gone |
| `FileStore.AddMessageKeepsConsistent` | pkg/storage/file/fstore.go:67-126 | the same invariant and the same non-rollback of the in-memory list hold for the whole `AddMessage` |
| `FileStore.CollisionLosesStoredMessage` | pkg/storage/file/fstore.go:89-123 | when the ID is one the index already lists and a step after create fails, the raw file of the stored message under that ID is removed while the index still lists it, so the invariant breaks |
| `FileStore.WriteLeavesOtherMailboxes` | pkg/storage/file/fstore.go:89-124 | writing a message, whatever step fails, leaves the raw files and the index of every other mailbox directory unchanged |
| `FileStore.AddMessageLeavesOtherMailboxes` | pkg/storage/file/fstore.go:89-124 | adding to one mailbox leaves the raw files and the index of every other mailbox directory unchanged |
| `Traversal.RunCalls` | pkg/storage/file/fstore.go:196-207 | the n-th visitor call gets the records loaded from the index of the n-th item of the tree in walk order (so every item before it was a mailbox directory whose index loaded), and every call but the last was answered true |
| `Traversal.RunEnds` | pkg/storage/file/fstore.go:174-215 | the walk returns nil after all items or on the first false answer, or it returns the first read or load error at the item after the last call, or it panics on a directory name shorter than six characters (six bytes in Go; the two agree on ASCII names, see Left out) |
| `Traversal.RunVisitsAll` | pkg/storage/file/fstore.go:180-214 | with readable directories, loadable indexes and a visitor that always continues, the visitor is called once per mailbox directory, in listing order, and the walk returns nil |
| `Traversal.VisitorStopsAt` | pkg/storage/file/fstore.go:205-207 | a visitor that answers false from its n-th call on is called at most n times, and a walk that reached that call stopped there with nil |
| `Traversal.WalkEntry` | pkg/storage/file/fstore.go:181-208 | one listing entry is skipped if it is not a directory, visited as a mailbox at the last level, or read and walked one level down, exactly as the reference run does |
| `Traversal.WalkLevel` | pkg/storage/file/fstore.go:180-213 | the loop over one listing makes the reference run's calls and ends as it does |
| `Traversal.VisitMailboxes` | pkg/storage/file/fstore.go:174-215 | the walk from the mail root makes exactly the reference run's calls, in order, and returns its result |

## Left out

- Shards.FromHash: names are sequences of characters, so the length requirement and the `hash[0:3]` and `hash[0:6]` slices count characters, while Go's slices count UTF-8 bytes. The two agree on ASCII names, and every `HashMailboxName` result is lower-case hex, so `mbox` is unaffected. They differ on non-ASCII directory names met by the walk, where Go's shard prefixes are byte prefixes and can split a character.
- Traversal.WalkEntry: its test for a level-3 name too short to slice counts characters, while Go's slice panics below six bytes. A non-ASCII name such as `日本` (two characters, six bytes) panics here, but Go visits it.
- Traversal.RunEnds: its panic case, a name shorter than six characters, is Go's only for ASCII names. Go panics below six bytes.
- Traversal.VisitMailboxes: it agrees with Go on trees whose level-3 directory names are ASCII, which includes every directory the store itself creates. On a non-ASCII level-3 name it can panic where Go calls the visitor, as with `日本`. On a longer non-ASCII name it asks `load` for a different index path than Go would.
- FileStore.WriteKeepsConsistent: assumes that the minted ID is not yet listed in the mailbox. IDs repeat when 10000 or more are minted in one second, or when the process restarts within the same second. `os.Create` then truncates the stored message's raw file. A later failure deletes that file while the index still lists it (`FileStore.CollisionLosesStoredMessage`). A success leaves the index listing the ID twice. No invariant is claimed for that case.
- FileStore.AddMessageKeepsConsistent: makes the same fresh-ID assumption, for the same reason.
- The generator goroutine and the buffered channel (`countChannel`, capacity 10) are concurrency. Only the sequence of values consumers receive is modelled, as an explicit counter state.
- The `RWMutex` locking and the `HashLock` registry are concurrency, and the registry is defined outside this file. A lock is represented by its registry key, which is the hash.
- `New` is directory creation and logging. An empty path returning nil is not modelled, and neither is the unused `messageCap`.
- `GetMessage`, `GetMessages`, `RemoveMessage` and `PurgeMessages` are not modelled. Each only resolves the mailbox, takes the lock and calls a mailbox method; those methods (`getMessage`, `getMessages`, `removeMessage`, `purge`) are defined outside this file and are not part of this model.
- `newMessage`, `createDir`, `writeIndex` and `getMessages` are defined outside this file. They are opaque fallible steps:
  - A successful `newMessage` mints one ID from `now` and the counter. A failed one consumes no counter value.
  - A successful `createDir` adds the three shard directories. A failed one changes nothing, so a partial `MkdirAll` is not modelled.
  - A successful `writeIndex` stores the whole list as the index snapshot. A failed one leaves the old index in place.
  - `getMessages` is the `load` parameter.
  - The raw file name `<id>.raw` in the mailbox directory follows the store's layout; `rawPath` itself is not in this file.
- `policy.ParseMailboxName` and `stringutil.HashMailboxName` are foreign code and become the parameters `parse` and `hash`. `hash` is required to return at least six characters.
- `filepath.Join` is modelled as joining with a single `/`. This equals Go's result when the mail root is already clean and the joined elements are plain names; `filepath.Clean` is not modelled.
- The `os.Remove` calls in the cleanup are modelled as always succeeding, because their errors are discarded. A failing remove would leave the raw file behind.
- The error of `r.Close()` is discarded (pkg/storage/file/fstore.go:101), so there is nothing to model. The partial content a failed `io.Copy` writes is not modelled, because that file is removed again (pkg/storage/file/fstore.go:98).
- Bytes are unbounded naturals for the size field. The `int64` range of `io.Copy`'s count is not modelled.
- `MessageIds.FormatStamp` models non-negative years only. Go prints negative years with a sign; the store never sees them.
- Time zones and `time.Time` internals are not modelled. A stamp is the six printed fields.
- `ioutil.ReadDir` returns entries sorted by name. The model takes each listing in the order given, and says nothing about the sort.
- `Traversal.WalkLevel`: the three hand-written nested loops are modelled as one loop per level with a depth parameter. They run the same steps in the same order.

=== FILE: count_gen.dfy ===
/** The values `countGenerator` pushes into `countChannel`
    (pkg/storage/file/fstore.go:35-39): a counter that starts at 0 and steps
    by one modulo 10000. The goroutine and the channel are not modelled; the
    counter is an explicit state value handed from one taker to the next. */
module CountGen {

  /** Number of distinct counter values; the cycle length. */
  const Cycle: nat := 10000

  /** A counter value, always in 0..9999. */
  type Count = n: nat | n < Cycle

  /** The first value the generator produces. */
  const Start: Count := 0

  /** The loop step `i = (i + 1) % 10000`. */
  function Successor(i: Count): (r: Count)
    ensures i < Cycle - 1 ==> r == i + 1
    ensures i == Cycle - 1 ==> r == 0
  {
    (i + 1) % Cycle
  }

  /** The k-th value taken from the channel (counting from 0), defined by
      running the loop step k times from `Start`. */
  function Emitted(k: nat): Count
  {
    if k == 0 then Start else Successor(Emitted(k - 1))
  }

  /** Closed form: the k-th value is k mod 10000. */
  lemma {:induction false} EmittedIsMod(k: nat)
    ensures Emitted(k) == k % Cycle
  {
    if k > 0 {
      EmittedIsMod(k - 1);
    }
  }

  /** Values `from + j` and `from + k` modulo the cycle differ when j and k
      are less than a full cycle apart. */
  lemma ModDistinct(from: nat, j: nat, k: nat)
    requires j < k < j + Cycle
    ensures (from + j) % Cycle != (from + k) % Cycle
  {
  }

  /** Any 10000 consecutive takes yield pairwise distinct values. */
  lemma EmittedDistinctWithinCycle(j: nat, k: nat)
    requires j < k < j + Cycle
    ensures Emitted(j) != Emitted(k)
  {
    EmittedIsMod(j);
    EmittedIsMod(k);
    ModDistinct(0, j, k);
  }

  /** After a full cycle the values repeat: 9999 is followed by 0 again. */
  lemma EmittedPeriodic(j: nat)
    ensures Emitted(j + Cycle) == Emitted(j)
  {
    EmittedIsMod(j);
    EmittedIsMod(j + Cycle);
  }

  /** Stepping the value `from + m` (mod 10000) gives `from + m + 1` (mod 10000). */
  lemma SuccessorOfOffset(from: Count, m: nat)
    ensures Successor((from + m) % Cycle) == (from + m + 1) % Cycle
  {
  }

  /** Takes `n` values from a generator whose next value is `from`, returning
      them in order together with the value that would come next. */
  method Take(from: Count, n: nat) returns (vals: seq<Count>, next: Count)
    ensures |vals| == n
    ensures forall k :: 0 <= k < n ==> vals[k] == (from + k) % Cycle
    ensures next == (from + n) % Cycle
  {
    vals := [];
    next := from;
    while |vals| < n
      invariant |vals| <= n
      invariant forall k :: 0 <= k < |vals| ==> vals[k] == (from + k) % Cycle
      invariant next == (from + |vals|) % Cycle
    {
      SuccessorOfOffset(from, |vals|);
      vals := vals + [next];
      next := Successor(next);
    }
  }
}

=== FILE: decimal.dfy ===
/** Decimal rendering of natural numbers, as Go's `fmt` verb `%0Nd` and the
    numeric fields of `time.Time.Format` produce it, and the parse back. */
module Decimal {
  import opened Results

  predicate IsDigit(c: char) {
    '0' <= c <= '9'
  }

  predicate AllDigits(s: string) {
    forall i :: 0 <= i < |s| ==> IsDigit(s[i])
  }

  function DigitValue(c: char): nat
    requires IsDigit(c)
  {
    c as int - '0' as int
  }

  function DigitChar(d: nat): (c: char)
    requires d < 10
    ensures IsDigit(c) && DigitValue(c) == d
  {
    ('0' as int + d) as char
  }

  function Pow10(w: nat): (p: nat)
    ensures p >= 1
  {
    if w == 0 then 1 else 10 * Pow10(w - 1)
  }

  /** The shortest decimal text of `n`: no leading zeros, "0" for zero. */
  function Digits(n: nat): (s: string)
    ensures 1 <= |s|
    ensures AllDigits(s)
    ensures s[0] == '0' ==> n == 0
  {
    if n < 10 then [DigitChar(n)] else Digits(n / 10) + [DigitChar(n % 10)]
  }

  /** A run of `k` zero characters. */
  function Zeros(k: nat): (s: string)
    ensures |s| == k
  {
    seq(k, _ => '0')
  }

  /** `n` left-padded with '0' to at least `w` characters: Go's `%0wd` for a
      non-negative operand (a wider number is printed in full, never cut). */
  function ZeroPad(n: nat, w: nat): (s: string)
    ensures AllDigits(s)
    ensures w <= |s|
  {
    var d := Digits(n);
    if |d| < w then Zeros(w - |d|) + d else d
  }

  /** The number a digit string denotes, read left to right; "" reads as 0. */
  function Value(s: string): nat
    requires AllDigits(s)
  {
    if |s| == 0 then 0 else 10 * Value(s[..|s| - 1]) + DigitValue(s[|s| - 1])
  }

  /** Strict decimal parse: a non-empty run of digits, and nothing else. */
  function ParseDecimal(s: string): (r: Option<nat>)
    ensures r.Some? <==> |s| > 0 && AllDigits(s)
  {
    if |s| > 0 && AllDigits(s) then Some(Value(s)) else None
  }

  lemma {:induction false} ValueOfDigits(n: nat)
    ensures Value(Digits(n)) == n
  {
    if n >= 10 {
      var s := Digits(n);
      assert s[..|s| - 1] == Digits(n / 10);
      ValueOfDigits(n / 10);
    }
  }

  lemma {:induction false} ValueOfZeros(k: nat)
    ensures Value(Zeros(k)) == 0
  {
    if k > 0 {
      assert Zeros(k)[..k - 1] == Zeros(k - 1);
      ValueOfZeros(k - 1);
    }
  }

  /** Leading zeros do not change the value of a digit string. */
  lemma {:induction false} LeadingZerosIgnored(k: nat, s: string)
    requires AllDigits(s)
    ensures AllDigits(Zeros(k) + s)
    ensures Value(Zeros(k) + s) == Value(s)
  {
    var t := Zeros(k) + s;
    assert AllDigits(t) by {
      forall i | 0 <= i < |t| ensures IsDigit(t[i]) {
        if i < k { assert t[i] == Zeros(k)[i]; } else { assert t[i] == s[i - k]; }
      }
    }
    if |s| == 0 {
      assert t == Zeros(k);
      ValueOfZeros(k);
    } else {
      assert t[..|t| - 1] == Zeros(k) + s[..|s| - 1];
      LeadingZerosIgnored(k, s[..|s| - 1]);
    }
  }

  /** Reading back a zero-padded rendering gives the number rendered. */
  lemma ParseZeroPad(n: nat, w: nat)
    ensures ParseDecimal(ZeroPad(n, w)) == Some(n)
    ensures Value(ZeroPad(n, w)) == n
  {
    var d := Digits(n);
    ValueOfDigits(n);
    if |d| < w {
      LeadingZerosIgnored(w - |d|, d);
    }
  }

  /** `n` needs at most `w` digits exactly when it is below 10^w. */
  lemma {:induction false} DigitsFit(n: nat, w: nat)
    requires 1 <= w
    ensures |Digits(n)| <= w <==> n < Pow10(w)
  {
    if n >= 10 {
      assert |Digits(n)| == |Digits(n / 10)| + 1;
      if w == 1 {
        assert Pow10(1) == 10;
      } else {
        DigitsFit(n / 10, w - 1);
        assert n / 10 < Pow10(w - 1) <==> n < 10 * Pow10(w - 1);
      }
    } else {
      assert Pow10(w) == 10 * Pow10(w - 1);
    }
  }

  /** A number below 10^w renders in exactly `w` characters. */
  lemma ZeroPadWidth(n: nat, w: nat)
    requires 1 <= w && n < Pow10(w)
    ensures |ZeroPad(n, w)| == w
  {
    DigitsFit(n, w);
  }

  /** Distinct numbers never render to the same text at any one width. */
  lemma ZeroPadInjective(m: nat, n: nat, w: nat)
    requires ZeroPad(m, w) == ZeroPad(n, w)
    ensures m == n
  {
    ParseZeroPad(m, w);
    ParseZeroPad(n, w);
  }
}

=== FILE: file_store.dfy ===
/** `Store.AddMessage` (pkg/storage/file/fstore.go:67-126) as a state machine
    over an abstract filesystem. Every fallible step takes its outcome from
    an injected flag; the interest is the order of the steps and the cleanup
    of the raw message file when a step after its creation fails. */
module FileStore {
  import opened Results
  import opened CountGen
  import opened MessageIds
  import opened Shards

  newtype byte = b: int | 0 <= b < 256

  /** One entry of a mailbox index: the message record `fm`. */
  datatype Record = Record(id: string, date: Stamp, from: string, to: seq<string>, size: nat, subject: string)

  /** An inbound message as the store sees it: the mailbox it is for, its
      header fields, and the bytes its source stream yields. */
  datatype Message = Message(mailbox: string, date: Stamp, from: string, to: seq<string>,
                             subject: string, content: seq<byte>)

  /** What a path holds: a directory, a raw message file, or an index file
      (a whole snapshot of a mailbox's record list). */
  datatype Node = Dir | Raw(data: seq<byte>) | Index(records: seq<Record>)

  type Fs = map<string, Node>

  /** Injected outcomes of the fallible steps, `true` meaning the step
      succeeds: `m.Source()`, `mb.newMessage()`, `mb.createDir()`,
      `os.Create`, `io.Copy`, `w.Flush()`, `file.Close()`, `mb.writeIndex()`. */
  datatype Steps = Steps(source: bool, newMessage: bool, createDir: bool, create: bool,
                         copy: bool, flush: bool, close: bool, writeIndex: bool)
  {
    /** Every step from `createDir` on succeeds. */
    predicate WriteSucceeds() {
      createDir && create && copy && flush && close && writeIndex
    }
  }

  /** The error `AddMessage` returns, by the step that produced it. */
  datatype AddError =
    | NameError(reason: string)
    | SourceError
    | NewMessageError
    | CreateDirError
    | CreateError
    | CopyError
    | FlushError
    | CloseError
    | WriteIndexError
  {
    /** Failures that happen before the raw file exists. */
    predicate Early() {
      NameError? || SourceError? || NewMessageError? || CreateDirError? || CreateError?
    }
  }

  /** What one `AddMessage` call works on: the filesystem, the mailbox's
      in-memory record list (as loaded from its index), and the next value
      the ID counter will hand out. */
  datatype State = State(fs: Fs, messages: seq<Record>, counter: Count)

  /** The `(id, err)` pair `AddMessage` returns, with the state it leaves. */
  datatype Added = Added(id: string, err: Option<AddError>, after: State)

  /** Where a message's raw content is kept: `<id>.raw` in the mailbox directory. */
  function RawPath(dir: string, id: string): string {
    Join(dir, id + ".raw")
  }

  /** The three shard levels of a mailbox directory, outermost first. */
  function ShardDirs(mailPath: string, hash: string): seq<string>
    requires |hash| >= 6
  {
    var d1 := Join(mailPath, hash[..3]);
    var d2 := Join(d1, hash[..6]);
    [d1, d2, Join(d2, hash)]
  }

  /** `createDir` succeeding: every listed directory exists afterwards;
      nothing already present is replaced. */
  function EnsureDirs(fs: Fs, dirs: seq<string>): (r: Fs)
    ensures forall i :: 0 <= i < |dirs| ==> dirs[i] in r
    ensures forall p :: p in fs ==> p in r && r[p] == fs[p]
    ensures forall p :: p in r && p !in fs ==> r[p] == Dir
    ensures forall p :: p in r ==> p in fs || p in dirs
  {
    if |dirs| == 0 then fs
    else
      var rest := EnsureDirs(fs, dirs[1..]);
      if dirs[0] in rest then rest else rest[dirs[0] := Dir]
  }

  /** The part of `AddMessage` after the ID `id` is minted
      (pkg/storage/file/fstore.go:84-125): make the mailbox directory, create
      and fill the raw file, append the record and rewrite the index. Every
      failure after `os.Create` removes the raw file again. */
  function WriteMessage(mailPath: string, mb: Mailbox, m: Message, id: string, steps: Steps, s: State): (r: Added)
    requires |mb.dirName| >= 6 && SameStorage(mb, FromHash(mailPath, mb.dirName))
    requires id != ""
    ensures r.after.counter == s.counter
    ensures r.err.None? <==> r.id != ""
    ensures r.err.None? ==> r.id == id
    // The first step that fails, in source order, names the error; when
    // none fails the call succeeds.
    ensures !steps.createDir ==> r.err == Some(CreateDirError)
    ensures steps.createDir && !steps.create ==> r.err == Some(CreateError)
    ensures steps.createDir && steps.create && !steps.copy ==> r.err == Some(CopyError)
    ensures steps.createDir && steps.create && steps.copy && !steps.flush ==> r.err == Some(FlushError)
    ensures steps.createDir && steps.create && steps.copy && steps.flush && !steps.close ==> r.err == Some(CloseError)
    ensures steps.createDir && steps.create && steps.copy && steps.flush && steps.close && !steps.writeIndex
            ==> r.err == Some(WriteIndexError)
    ensures r.err.None? <==> steps.WriteSucceeds()
    ensures r.err.Some? ==> !r.err.value.NameError? && !r.err.value.SourceError? && !r.err.value.NewMessageError?
    ensures r.err.Some? && !r.err.value.WriteIndexError? ==> r.after.messages == s.messages
    ensures r.err == Some(CreateDirError) ==> r.after.fs == s.fs
    // Up to and including a failed create, only directories were added.
    ensures r.err.Some? && r.err.value.Early() ==>
      forall p :: p in r.after.fs ==> (p in s.fs && r.after.fs[p] == s.fs[p]) || (p !in s.fs && r.after.fs[p] == Dir)
    ensures r.err.Some? && !r.err.value.Early() ==> RawPath(mb.path, id) !in r.after.fs
    // A failure before the raw file exists keeps every existing file; a later
    // failure keeps every existing file but the raw one, the index included.
    ensures r.err.Some? && r.err.value.Early() ==>
      forall p :: p in s.fs ==> p in r.after.fs && r.after.fs[p] == s.fs[p]
    ensures r.err.Some? ==>
      forall p :: p in s.fs && p != RawPath(mb.path, id) ==> p in r.after.fs && r.after.fs[p] == s.fs[p]
    // Once createDir succeeds, the three shard directories exist.
    ensures steps.createDir ==> forall d :: d in ShardDirs(mailPath, mb.dirName) ==> d in r.after.fs
    // Nothing but the raw file and the index is replaced or removed, and
    // nothing but directories, the raw file and the index is added.
    ensures forall p :: p in s.fs && p != RawPath(mb.path, id) && p != mb.indexPath ==>
      p in r.after.fs && r.after.fs[p] == s.fs[p]
    ensures forall p :: p in r.after.fs && p !in s.fs ==>
      r.after.fs[p] == Dir || p == RawPath(mb.path, id) || p == mb.indexPath
    ensures r.err.None? ==>
      && r.after.messages == s.messages + [Record(id, m.date, m.from, m.to, |m.content|, m.subject)]
      && RawPath(mb.path, id) in r.after.fs && r.after.fs[RawPath(mb.path, id)] == Raw(m.content)
      && mb.indexPath in r.after.fs && r.after.fs[mb.indexPath] == Index(r.after.messages)
  {
    var raw := RawPath(mb.path, id);
    assert raw != mb.indexPath by {
      assert raw[|raw| - 1] == 'w';
      assert mb.indexPath[|mb.indexPath| - 1] == 'b';
    }
    if !steps.createDir then Added("", Some(CreateDirError), s)
    else
      var fs1 := EnsureDirs(s.fs, ShardDirs(mailPath, mb.dirName));
      if !steps.create then Added("", Some(CreateError), s.(fs := fs1))
      else if !steps.copy then Added("", Some(CopyError), s.(fs := fs1[raw := Raw([])] - {raw}))
      else if !steps.flush then Added("", Some(FlushError), s.(fs := fs1[raw := Raw([])] - {raw}))
      else if !steps.close then Added("", Some(CloseError), s.(fs := fs1[raw := Raw(m.content)] - {raw}))
      else
        var rec := Record(id, m.date, m.from, m.to, |m.content|, m.subject);
        var messages := s.messages + [rec];
        var fs2 := fs1[raw := Raw(m.content)];
        if !steps.writeIndex then Added("", Some(WriteIndexError), s.(fs := fs2 - {raw}, messages := messages))
        else Added(id, None, s.(fs := fs2[mb.indexPath := Index(messages)], messages := messages))
  }

  /** `AddMessage`: resolve the mailbox, read the source, mint an ID from the
      wall clock `now` and the counter, then write the message. */
  function AddMessage(mailPath: string, parse: string -> Result<string, string>, hash: string -> string,
                      m: Message, now: Stamp, steps: Steps, s: State): (r: Added)
    requires forall n :: |hash(n)| >= 6
    requires ValidStamp(now)
    // The returned ID is empty exactly when an error is returned.
    ensures r.err.None? <==> r.id != ""
    // Only a failed index write changes the in-memory list without success.
    ensures r.err.Some? && !r.err.value.WriteIndexError? ==> r.after.messages == s.messages
    // A name the policy rejects is reported with the policy's reason.
    ensures parse(m.mailbox).Failure? <==> r.err.Some? && r.err.value.NameError?
    ensures r.err.Some? && r.err.value.NameError? ==> r.err.value.reason == parse(m.mailbox).error
    // The first step that fails, in source order, names the error.
    ensures parse(m.mailbox).Success? && !steps.source ==> r.err == Some(SourceError)
    ensures parse(m.mailbox).Success? && steps.source && !steps.newMessage ==> r.err == Some(NewMessageError)
    ensures parse(m.mailbox).Success? && steps.source && steps.newMessage ==>
      && (!steps.createDir ==> r.err == Some(CreateDirError))
      && (steps.createDir && !steps.create ==> r.err == Some(CreateError))
      && (steps.createDir && steps.create && !steps.copy ==> r.err == Some(CopyError))
      && (steps.createDir && steps.create && steps.copy && !steps.flush ==> r.err == Some(FlushError))
      && (steps.createDir && steps.create && steps.copy && steps.flush && !steps.close ==> r.err == Some(CloseError))
      && (steps.createDir && steps.create && steps.copy && steps.flush && steps.close && !steps.writeIndex
          ==> r.err == Some(WriteIndexError))
    // The call succeeds exactly when the name is accepted and every step succeeds.
    ensures r.err.None? <==> parse(m.mailbox).Success? && steps.source && steps.newMessage && steps.WriteSucceeds()
    // A failure before an ID is minted changes nothing.
    ensures r.err.Some? && (r.err.value.NameError? || r.err.value.SourceError? || r.err.value.NewMessageError?)
            ==> r.after == s
    // From the minting on, exactly one counter value is consumed.
    ensures r.err.None? || !(r.err.value.NameError? || r.err.value.SourceError? || r.err.value.NewMessageError?)
            ==> r.after.counter == Successor(s.counter)
    // A failed createDir leaves the filesystem as it was.
    ensures r.err == Some(CreateDirError) ==> r.after.fs == s.fs
    // Any failure before the raw file exists adds nothing but directories.
    ensures r.err.Some? && r.err.value.Early() ==>
      forall p :: p in r.after.fs ==> (p in s.fs && r.after.fs[p] == s.fs[p]) || (p !in s.fs && r.after.fs[p] == Dir)
    // Any failure after the raw file was created removes it again.
    ensures r.err.Some? && !r.err.value.Early() ==>
      && parse(m.mailbox).Success?
      && RawPath(FromHash(mailPath, hash(parse(m.mailbox).value)).path, GenerateId(now, s.counter).0) !in r.after.fs
    // A failed call keeps every existing file but the raw file of the minted
    // ID; in particular the index is left as it was.
    ensures r.err.Some? && parse(m.mailbox).Success? ==>
      var home := FromHash(mailPath, hash(parse(m.mailbox).value));
      forall p :: p in s.fs && p != RawPath(home.path, GenerateId(now, s.counter).0) ==>
        p in r.after.fs && r.after.fs[p] == s.fs[p]
    // Once the mailbox directory is made, it and its shard parents exist.
    ensures parse(m.mailbox).Success? && steps.source && steps.newMessage && steps.createDir ==>
      forall d :: d in ShardDirs(mailPath, hash(parse(m.mailbox).value)) ==> d in r.after.fs
    // On success the ID names this second and counter value, and exactly one
    // record, carrying the message's fields and its byte count, is appended.
    ensures r.err.None? ==>
      && DecodeId(r.id) == Some((now, s.counter))
      && (now.year < 10000 ==> IdPattern(r.id))
      && |r.after.messages| == |s.messages| + 1
      && r.after.messages[..|s.messages|] == s.messages
      && r.after.messages[|s.messages|] == Record(r.id, m.date, m.from, m.to, |m.content|, m.subject)
    // On success the raw file holds the content and the index holds the new
    // list, in the mailbox directory the name hashes to.
    ensures r.err.None? ==>
      && parse(m.mailbox).Success?
      && var home := FromHash(mailPath, hash(parse(m.mailbox).value));
      && RawPath(home.path, r.id) in r.after.fs && r.after.fs[RawPath(home.path, r.id)] == Raw(m.content)
      && home.indexPath in r.after.fs && r.after.fs[home.indexPath] == Index(r.after.messages)
  {
    match Resolve(mailPath, m.mailbox, parse, hash)
    case Failure(e) => Added("", Some(NameError(e)), s)
    case Success(mb) =>
      if !steps.source then Added("", Some(SourceError), s)
      else if !steps.newMessage then Added("", Some(NewMessageError), s)
      else
        var minted := GenerateId(now, s.counter);
        WriteMessage(mailPath, mb, m, minted.0, steps, s.(counter := minted.1))
  }

  /** The records a mailbox's index file holds; a missing index reads as
      an empty mailbox. */
  function OnDisk(fs: Fs, mb: Mailbox): seq<Record> {
    if mb.indexPath in fs && fs[mb.indexPath].Index? then fs[mb.indexPath].records else []
  }

  /** `p` names an entry directly inside directory `dir`. */
  predicate InDir(p: string, dir: string) {
    |p| > |dir| + 1 && p[..|dir| + 1] == dir + "/" && '/' !in p[|dir| + 1..]
  }

  /** The raw files directly inside `dir`. */
  function RawFiles(fs: Fs, dir: string): set<string> {
    set p | p in fs && fs[p].Raw? && InDir(p, dir)
  }

  /** The raw files the records `recs` refer to. */
  function IndexedFiles(dir: string, recs: seq<Record>): set<string> {
    set i | 0 <= i < |recs| :: RawPath(dir, recs[i].id)
  }

  /** The on-disk invariant of a mailbox: its directory holds a raw file for
      every record of its index and no other raw file. */
  predicate Consistent(fs: Fs, mb: Mailbox) {
    RawFiles(fs, mb.path) == IndexedFiles(mb.path, OnDisk(fs, mb))
  }

  lemma RawFilesAdd(fs: Fs, dir: string, p: string, data: seq<byte>)
    requires InDir(p, dir)
    ensures RawFiles(fs[p := Raw(data)], dir) == RawFiles(fs, dir) + {p}
  {
  }

  lemma RawFilesNoRaw(fs: Fs, dir: string, p: string, n: Node)
    requires !n.Raw? && (p in fs ==> !fs[p].Raw?)
    ensures RawFiles(fs[p := n], dir) == RawFiles(fs, dir)
  {
    assert forall q :: q in fs[p := n] && fs[p := n][q].Raw? <==> q in fs && fs[q].Raw?;
  }

  lemma IndexedFilesAppend(dir: string, recs: seq<Record>, rec: Record)
    ensures IndexedFiles(dir, recs + [rec]) == IndexedFiles(dir, recs) + {RawPath(dir, rec.id)}
  {
    var both := recs + [rec];
    assert forall i :: 0 <= i < |recs| ==> both[i] == recs[i];
    assert both[|recs|] == rec;
  }

  /** The raw file of a plain ID sits directly inside the mailbox directory. */
  lemma RawPathInDir(dir: string, id: string)
    requires '/' !in id
    ensures InDir(RawPath(dir, id), dir)
  {
    var p := RawPath(dir, id);
    assert p[|dir| + 1..] == id + ".raw";
  }

  /** Only a directory is ever added by `createDir`, so it cannot disturb
      the invariant. */
  lemma EnsureDirsKeepsConsistent(fs: Fs, dirs: seq<string>, mb: Mailbox)
    ensures RawFiles(EnsureDirs(fs, dirs), mb.path) == RawFiles(fs, mb.path)
    ensures OnDisk(EnsureDirs(fs, dirs), mb) == OnDisk(fs, mb)
  {
    var fs1 := EnsureDirs(fs, dirs);
    assert forall q :: q in fs1 && fs1[q].Raw? <==> q in fs && fs[q].Raw?;
  }

  /** Under the invariant the index path never holds a raw file: raw file
      names end in ".raw", the index is "index.gob". */
  lemma IndexIsNotRaw(fs: Fs, mb: Mailbox)
    requires mb.indexPath == Join(mb.path, IndexFileName)
    requires Consistent(fs, mb)
    ensures mb.indexPath in fs ==> !fs[mb.indexPath].Raw?
  {
    var recs := OnDisk(fs, mb);
    forall i | 0 <= i < |recs|
      ensures RawPath(mb.path, recs[i].id) != mb.indexPath
    {
      var q := RawPath(mb.path, recs[i].id);
      assert q[|q| - 1] == 'w';
    }
    assert mb.indexPath !in IndexedFiles(mb.path, recs);
    assert InDir(mb.indexPath, mb.path) by {
      assert mb.indexPath[|mb.path| + 1..] == IndexFileName;
    }
  }

  /** Creating a file that was absent and removing it again restores the
      filesystem. */
  lemma PutThenRemove(fs: Fs, p: string, n: Node)
    requires p !in fs
    ensures fs[p := n] - {p} == fs
  {
  }

  /** The successful end of a write: the raw file and the rewritten index
      appear together, so the invariant carries over. */
  lemma CommitKeepsConsistent(fs: Fs, mb: Mailbox, raw: string, id: string, data: seq<byte>,
                              messages: seq<Record>, rec: Record)
    requires mb.indexPath == Join(mb.path, IndexFileName)
    requires Consistent(fs, mb) && messages == OnDisk(fs, mb)
    requires '/' !in id && raw == RawPath(mb.path, id) && rec.id == id
    requires raw !in fs && raw != mb.indexPath
    ensures var fs' := fs[raw := Raw(data)][mb.indexPath := Index(messages + [rec])];
      Consistent(fs', mb) && OnDisk(fs', mb) == messages + [rec]
  {
    var fs2 := fs[raw := Raw(data)];
    RawPathInDir(mb.path, id);
    RawFilesAdd(fs, mb.path, raw, data);
    IndexIsNotRaw(fs, mb);
    RawFilesNoRaw(fs2, mb.path, mb.indexPath, Index(messages + [rec]));
    IndexedFilesAppend(mb.path, messages, rec);
  }

  /** The cleanup discipline: writing a message keeps the mailbox's on-disk
      invariant whichever step fails, provided the minted ID is new there.
      On success the in-memory list is the index; after a failed index write
      it is one record ahead of the index, with that record's raw file gone. */
  lemma WriteKeepsConsistent(mailPath: string, mb: Mailbox, m: Message, id: string,
                              steps: Steps, s: State)
    requires |mb.dirName| >= 6 && SameStorage(mb, FromHash(mailPath, mb.dirName))
    requires id != "" && '/' !in id
    requires Consistent(s.fs, mb) && s.messages == OnDisk(s.fs, mb)
    requires RawPath(mb.path, id) !in s.fs
    ensures var r := WriteMessage(mailPath, mb, m, id, steps, s);
      && Consistent(r.after.fs, mb)
      && (r.err.None? ==> r.after.messages == OnDisk(r.after.fs, mb))
      && (r.err == Some(WriteIndexError) ==>
            && OnDisk(r.after.fs, mb) == s.messages
            && |r.after.messages| == |s.messages| + 1
            && RawPath(mb.path, r.after.messages[|s.messages|].id) !in r.after.fs)
  {
    var r := WriteMessage(mailPath, mb, m, id, steps, s);
    var raw := RawPath(mb.path, id);
    var dirs := ShardDirs(mailPath, mb.dirName);
    var fs1 := EnsureDirs(s.fs, dirs);
    EnsureDirsKeepsConsistent(s.fs, dirs, mb);
    assert raw !in dirs by {
      assert |raw| > |mb.path| >= |dirs[2]| > |dirs[1]| > |dirs[0]|;
    }
    assert raw !in fs1;
    assert raw != mb.indexPath by {
      assert raw[|raw| - 1] == 'w';
    }
    if !steps.createDir {
    } else if !steps.create {
    } else if !steps.copy || !steps.flush {
      PutThenRemove(fs1, raw, Raw([]));
    } else {
      var rec := Record(id, m.date, m.from, m.to, |m.content|, m.subject);
      PutThenRemove(fs1, raw, Raw(m.content));
      if !steps.close || !steps.writeIndex {
      } else {
        CommitKeepsConsistent(fs1, mb, raw, id, m.content, s.messages, rec);
      }
    }
  }

  /** A path directly inside a directory names that directory as its parent. */
  lemma InDirParent(p: string, dir: string)
    requires InDir(p, dir)
    ensures DirOf(p) == dir
  {
    assert p == Join(dir, p[|dir| + 1..]);
    SplitJoin(dir, p[|dir| + 1..]);
  }

  /** The fresh-ID hypothesis above is needed. When the minted ID is one the
      index already lists (the counter wrapped within one second, or the
      process restarted within it), a failure after `os.Create` removes the
      raw file of the message stored under that ID while the index still
      lists it, so the mailbox is no longer consistent. */
  lemma CollisionLosesStoredMessage(mailPath: string, mb: Mailbox, m: Message, id: string,
                                    steps: Steps, s: State, k: nat)
    requires |mb.dirName| >= 6 && SameStorage(mb, FromHash(mailPath, mb.dirName))
    requires id != "" && '/' !in id
    requires k < |OnDisk(s.fs, mb)| && OnDisk(s.fs, mb)[k].id == id
    requires steps.createDir && steps.create && !steps.WriteSucceeds()
    ensures var r := WriteMessage(mailPath, mb, m, id, steps, s);
      && OnDisk(r.after.fs, mb) == OnDisk(s.fs, mb)
      && RawPath(mb.path, id) !in r.after.fs
      && !Consistent(r.after.fs, mb)
  {
    var r := WriteMessage(mailPath, mb, m, id, steps, s);
    var raw := RawPath(mb.path, id);
    assert raw != mb.indexPath by {
      assert raw[|raw| - 1] == 'w';
      assert mb.indexPath[|mb.indexPath| - 1] == 'b';
    }
    assert OnDisk(r.after.fs, mb) == OnDisk(s.fs, mb);
    assert raw in IndexedFiles(mb.path, OnDisk(r.after.fs, mb));
    assert raw !in RawFiles(r.after.fs, mb.path);
  }

  /** `AddMessage` keeps the on-disk invariant of the mailbox it writes to,
      whichever step fails, provided the ID it mints is new in that mailbox
      (the uniqueness the counter gives within one second). On success the
      in-memory list equals the index; after a failed index write the list
      is not rolled back: it holds one record more than the index, and that
      record's raw file has been removed. */
  lemma AddMessageKeepsConsistent(mailPath: string, parse: string -> Result<string, string>, hash: string -> string,
                                  m: Message, now: Stamp, steps: Steps, s: State, mb: Mailbox)
    requires forall n :: |hash(n)| >= 6
    requires ValidStamp(now)
    requires Resolve(mailPath, m.mailbox, parse, hash) == Success(mb)
    requires Consistent(s.fs, mb) && s.messages == OnDisk(s.fs, mb)
    requires RawPath(mb.path, GenerateId(now, s.counter).0) !in s.fs
    ensures var r := AddMessage(mailPath, parse, hash, m, now, steps, s);
      && Consistent(r.after.fs, mb)
      && (r.err.None? ==> r.after.messages == OnDisk(r.after.fs, mb))
      && (r.err == Some(WriteIndexError) ==>
            && OnDisk(r.after.fs, mb) == s.messages
            && |r.after.messages| == |s.messages| + 1
            && RawPath(mb.path, r.after.messages[|s.messages|].id) !in r.after.fs)
  {
    if steps.source && steps.newMessage {
      var minted := GenerateId(now, s.counter);
      WriteKeepsConsistent(mailPath, mb, m, minted.0, steps, s.(counter := minted.1));
    }
  }

  /** A change confined to the paths `a` and `b` plus new directories does
      not touch a mailbox whose directory holds neither path. */
  lemma FrameKeepsMailbox(fs: Fs, fs': Fs, a: string, b: string, other: Mailbox)
    requires forall p :: p in fs && p != a && p != b ==> p in fs' && fs'[p] == fs[p]
    requires forall p :: p in fs' && p !in fs ==> fs'[p] == Dir || p == a || p == b
    requires !InDir(a, other.path) && !InDir(b, other.path)
    requires other.indexPath != a && other.indexPath != b
    ensures RawFiles(fs', other.path) == RawFiles(fs, other.path)
    ensures OnDisk(fs', other) == OnDisk(fs, other)
  {
  }

  /** The raw file and the index of one mailbox directory lie outside any
      other mailbox directory. */
  lemma ApartFromOther(path: string, id: string, other: Mailbox)
    requires '/' !in id
    requires path != other.path
    requires other.indexPath == Join(other.path, IndexFileName)
    ensures !InDir(RawPath(path, id), other.path) && !InDir(Join(path, IndexFileName), other.path)
    ensures other.indexPath != RawPath(path, id) && other.indexPath != Join(path, IndexFileName)
  {
    var raw := RawPath(path, id);
    RawPathInDir(path, id);
    InDirParent(raw, path);
    SplitJoin(path, IndexFileName);
    SplitJoin(other.path, IndexFileName);
    assert !InDir(raw, other.path) by {
      if InDir(raw, other.path) { InDirParent(raw, other.path); }
    }
    var index := Join(path, IndexFileName);
    assert !InDir(index, other.path) by {
      if InDir(index, other.path) { InDirParent(index, other.path); }
    }
    assert other.indexPath != raw by {
      assert raw[|raw| - 1] == 'w';
    }
  }

  /** Writing a message into one mailbox directory leaves every other
      mailbox directory's raw files and index as they were. */
  lemma WriteLeavesOtherMailboxes(mailPath: string, mb: Mailbox, m: Message, id: string, steps: Steps,
                                  s: State, other: Mailbox)
    requires |mb.dirName| >= 6 && SameStorage(mb, FromHash(mailPath, mb.dirName))
    requires id != "" && '/' !in id
    requires other.indexPath == Join(other.path, IndexFileName)
    requires mb.path != other.path
    ensures var r := WriteMessage(mailPath, mb, m, id, steps, s);
      && RawFiles(r.after.fs, other.path) == RawFiles(s.fs, other.path)
      && OnDisk(r.after.fs, other) == OnDisk(s.fs, other)
  {
    ApartFromOther(mb.path, id, other);
    var w := WriteMessage(mailPath, mb, m, id, steps, s);
    FrameKeepsMailbox(s.fs, w.after.fs, RawPath(mb.path, id), mb.indexPath, other);
  }

  /** `AddMessage` on one mailbox leaves every other mailbox as it was: the
      same raw files and the same index, so its invariant carries over. */
  lemma AddMessageLeavesOtherMailboxes(mailPath: string, parse: string -> Result<string, string>,
                                       hash: string -> string, m: Message, now: Stamp, steps: Steps,
                                       s: State, other: Mailbox)
    requires forall n :: |hash(n)| >= 6
    requires ValidStamp(now)
    requires other.indexPath == Join(other.path, IndexFileName)
    requires parse(m.mailbox).Success? ==>
      FromHash(mailPath, hash(parse(m.mailbox).value)).path != other.path
    ensures var r := AddMessage(mailPath, parse, hash, m, now, steps, s);
      && RawFiles(r.after.fs, other.path) == RawFiles(s.fs, other.path)
      && OnDisk(r.after.fs, other) == OnDisk(s.fs, other)
  {
    if parse(m.mailbox).Success? && steps.source && steps.newMessage {
      var mb := Resolve(mailPath, m.mailbox, parse, hash).value;
      var minted := GenerateId(now, s.counter);
      WriteLeavesOtherMailboxes(mailPath, mb, m, minted.0, steps, s.(counter := minted.1), other);
    }
  }
}

=== FILE: message_id.dfy ===
/** Message identifiers: `generatePrefix` and `generateID`
    (pkg/storage/file/fstore.go:253-264). An ID is the wall-clock time in the
    layout "20060102T150405", a dash, and the next counter value printed with
    `%04d`. */
module MessageIds {
  import opened Results
  import opened Decimal
  import opened CountGen

  /** A wall-clock time at second resolution: the fields of `time.Time` that
      the layout prints. */
  datatype Stamp = Stamp(year: nat, month: nat, day: nat, hour: nat, minute: nat, second: nat)

  /** The field ranges a `time.Time` value always has. */
  predicate ValidStamp(t: Stamp) {
    && 1 <= t.month <= 12
    && 1 <= t.day <= 31
    && t.hour < 24
    && t.minute < 60
    && t.second < 60
  }

  /** Digits, with a single 'T' seven characters from the end: the shape of
      a formatted stamp. The year part is at least four digits long. */
  predicate StampShape(s: string) {
    && |s| >= 15
    && s[|s| - 7] == 'T'
    && forall i :: 0 <= i < |s| && i != |s| - 7 ==> IsDigit(s[i])
  }

  /** `^\d{8}T\d{6}-\d{4}$`: the text of every ID minted before year 10000. */
  predicate IdPattern(s: string) {
    && |s| == 20
    && s[8] == 'T'
    && s[15] == '-'
    && forall i :: 0 <= i < 20 && i != 8 && i != 15 ==> IsDigit(s[i])
  }

  lemma Pow10Values()
    ensures Pow10(2) == 100 && Pow10(4) == 10000
  {
    assert Pow10(1) == 10;
    assert Pow10(3) == 1000;
  }

  lemma YearWidth(y: nat)
    ensures y < 10000 ==> |ZeroPad(y, 4)| == 4
  {
    if y < 10000 {
      Pow10Values();
      ZeroPadWidth(y, 4);
    }
  }

  /** `generatePrefix`: `date.Format("20060102T150405")`. */
  function FormatStamp(t: Stamp): (s: string)
    requires ValidStamp(t)
    ensures StampShape(s)
    ensures |s| == |ZeroPad(t.year, 4)| + 11
    ensures t.year < 10000 ==> |s| == 15
  {
    Pow10Values();
    ZeroPadWidth(t.month, 2);
    ZeroPadWidth(t.day, 2);
    ZeroPadWidth(t.hour, 2);
    ZeroPadWidth(t.minute, 2);
    ZeroPadWidth(t.second, 2);
    YearWidth(t.year);
    ZeroPad(t.year, 4) + ZeroPad(t.month, 2) + ZeroPad(t.day, 2) + "T"
      + ZeroPad(t.hour, 2) + ZeroPad(t.minute, 2) + ZeroPad(t.second, 2)
  }

  /** Reads a formatted stamp back into its fields; `None` for text of the
      wrong shape or with an out-of-range field. */
  function ParseStamp(s: string): (r: Option<Stamp>)
    ensures r.Some? ==> StampShape(s) && ValidStamp(r.value)
  {
    if !StampShape(s) then None
    else
      var n := |s|;
      assert AllDigits(s[..n - 11]) && AllDigits(s[n - 11..n - 9]) && AllDigits(s[n - 9..n - 7]);
      assert AllDigits(s[n - 6..n - 4]) && AllDigits(s[n - 4..n - 2]) && AllDigits(s[n - 2..]);
      var t := Stamp(Value(s[..n - 11]), Value(s[n - 11..n - 9]), Value(s[n - 9..n - 7]),
                     Value(s[n - 6..n - 4]), Value(s[n - 4..n - 2]), Value(s[n - 2..]));
      if ValidStamp(t) then Some(t) else None
  }

  /** Cutting a stamp-shaped concatenation at the offsets `ParseStamp` uses
      gives back its six fields. */
  lemma StampFields(y: string, mo: string, d: string, h: string, mi: string, se: string)
    requires |mo| == 2 && |d| == 2 && |h| == 2 && |mi| == 2 && |se| == 2
    ensures var s := y + mo + d + "T" + h + mi + se;
      var n := |s|;
      && s[..n - 11] == y && s[n - 11..n - 9] == mo && s[n - 9..n - 7] == d
      && s[n - 6..n - 4] == h && s[n - 4..n - 2] == mi && s[n - 2..] == se
  {

  }

  /** The prefix layout loses nothing: parsing a formatted stamp gives it back. */
  lemma StampRoundTrip(t: Stamp)
    requires ValidStamp(t)
    ensures ParseStamp(FormatStamp(t)) == Some(t)
  {
    Pow10Values();
    var y, mo, d := ZeroPad(t.year, 4), ZeroPad(t.month, 2), ZeroPad(t.day, 2);
    var h, mi, se := ZeroPad(t.hour, 2), ZeroPad(t.minute, 2), ZeroPad(t.second, 2);
    ZeroPadWidth(t.month, 2);
    ZeroPadWidth(t.day, 2);
    ZeroPadWidth(t.hour, 2);
    ZeroPadWidth(t.minute, 2);
    ZeroPadWidth(t.second, 2);
    StampFields(y, mo, d, h, mi, se);
    ParseZeroPad(t.year, 4);
    ParseZeroPad(t.month, 2);
    ParseZeroPad(t.day, 2);
    ParseZeroPad(t.hour, 2);
    ParseZeroPad(t.minute, 2);
    ParseZeroPad(t.second, 2);
  }

  /** The text `generateID` builds from a prefix and a counter value. */
  function IdText(prefix: string, count: Count): (id: string)
    ensures |id| == |prefix| + 5
    ensures id[..|prefix|] == prefix && id[|prefix|] == '-'
    ensures AllDigits(id[|prefix| + 1..])
  {
    Pow10Values();
    ZeroPadWidth(count, 4);
    var id := prefix + "-" + ZeroPad(count, 4);
    assert id[|prefix| + 1..] == ZeroPad(count, 4);
    id
  }

  /** Splits an ID into its prefix and its four-digit counter tail. */
  function ParseId(id: string): (r: Option<(string, nat)>)
    ensures r.Some? ==> r.value.1 < Cycle && |id| == |r.value.0| + 5
  {
    var n := |id|;
    if n >= 5 && id[n - 5] == '-' && AllDigits(id[n - 4..]) then
      Pow10Values();
      ValueBelow(id[n - 4..]);
      Some((id[..n - 5], Value(id[n - 4..])))
    else None
  }

  /** A digit string of length w denotes a number below 10^w. */
  lemma {:induction false} ValueBelow(s: string)
    requires AllDigits(s)
    ensures Value(s) < Pow10(|s|)
  {
    if |s| > 0 {
      ValueBelow(s[..|s| - 1]);
    }
  }

  /** The counter tail reads back as the counter value that was printed. */
  lemma IdRoundTrip(prefix: string, count: Count)
    ensures ParseId(IdText(prefix, count)) == Some((prefix, count))
  {
    var id := IdText(prefix, count);
    var n := |id|;
    assert id[n - 4..] == ZeroPad(count, 4);
    ParseZeroPad(count, 4);
  }

  /** Recovers the time and the counter value an ID was minted from. */
  function DecodeId(id: string): (r: Option<(Stamp, Count)>)
    ensures r.Some? ==> ParseId(id).Some?
  {
    match ParseId(id)
    case None => None
    case Some((prefix, count)) =>
      match ParseStamp(prefix)
      case None => None
      case Some(t) => Some((t, count))
  }

  /** `generateID`: the ID for the time `date` and the counter value `count`
      taken from the channel, together with the generator's next value. */
  function GenerateId(date: Stamp, count: Count): (r: (string, Count))
    requires ValidStamp(date)
    ensures DecodeId(r.0) == Some((date, count))
    ensures date.year < 10000 ==> IdPattern(r.0)
    ensures '/' !in r.0
    ensures r.1 == Successor(count)
  {
    var id := IdText(FormatStamp(date), count);
    IdRoundTrip(FormatStamp(date), count);
    StampRoundTrip(date);
    IdTextPattern(date, count);
    IdTextPlain(date, count);
    (id, Successor(count))
  }

  /** Before year 10000 the ID text has the fixed 20-character shape. */
  lemma IdTextPattern(date: Stamp, count: Count)
    requires ValidStamp(date)
    ensures date.year < 10000 ==> IdPattern(IdText(FormatStamp(date), count))
  {

  }

  /** An ID contains digits, 'T' and '-' only, so it is a plain file name. */
  lemma IdTextPlain(date: Stamp, count: Count)
    requires ValidStamp(date)
    ensures '/' !in IdText(FormatStamp(date), count)
  {

  }

  /** The ID text determines its prefix and its counter value. */
  lemma IdTextInjective(p1: string, c1: Count, p2: string, c2: Count)
    requires IdText(p1, c1) == IdText(p2, c2)
    ensures p1 == p2 && c1 == c2
  {
    IdRoundTrip(p1, c1);
    IdRoundTrip(p2, c2);
  }

  /** Two IDs are equal only when minted from the same second and the same
      counter value. */
  lemma GenerateIdInjective(d1: Stamp, c1: Count, d2: Stamp, c2: Count)
    requires ValidStamp(d1) && ValidStamp(d2)
    requires IdText(FormatStamp(d1), c1) == IdText(FormatStamp(d2), c2)
    ensures d1 == d2 && c1 == c2
  {
    IdTextInjective(FormatStamp(d1), c1, FormatStamp(d2), c2);
    StampRoundTrip(d1);
    StampRoundTrip(d2);
  }

  /** IDs minted in one second (so with one prefix) from counter values taken
      fewer than a full cycle apart differ: the uniqueness the store relies
      on. */
  lemma ConsecutiveIdsDistinct(prefix: string, from: Count, j: nat, k: nat)
    requires j < k < j + Cycle
    ensures IdText(prefix, (from + j) % Cycle) != IdText(prefix, (from + k) % Cycle)
  {
    ModDistinct(from, j, k);
    IdRoundTrip(prefix, (from + j) % Cycle);
    IdRoundTrip(prefix, (from + k) % Cycle);
  }
}

=== FILE: results.dfy ===
/** Failure-carrying result types shared by the store model. */
module Results {

  /** A value that may be absent. */
  datatype Option<+T> = None | Some(value: T)

  /** Either a value or the error that prevented computing it (Go's `(v, err)` pair). */
  datatype Result<+T, +E> = Success(value: T) | Failure(error: E)
}

=== FILE: shards.dfy ===
/** Mailbox location: `Store.mbox` and `Store.mboxFromHash`
    (pkg/storage/file/fstore.go:217-251). A mailbox with name hash `h` lives
    in `mailPath/h[0:3]/h[0:6]/h`, keeps its index in `index.gob` there, and
    is locked under the key `h`. */
module Shards {
  import opened Results

  /** Name of the index file in each mailbox directory. */
  const IndexFileName: string := "index.gob"

  /** `filepath.Join(dir, name)` for a clean directory and a plain name (no
      separator, not "." or ".."): the two are joined by one separator and
      cleaning changes nothing. */
  function Join(dir: string, name: string): string {
    dir + "/" + name
  }

  /** The last element of a path: the text after its final separator. */
  function Base(p: string): (b: string)
    ensures '/' !in b
    ensures |b| <= |p|
  {
    if |p| == 0 || p[|p| - 1] == '/' then "" else Base(p[..|p| - 1]) + [p[|p| - 1]]
  }

  /** Everything before the final separator of a path. */
  function DirOf(p: string): (d: string)
    ensures |d| <= |p|
  {
    if |p| == 0 then "" else if p[|p| - 1] == '/' then p[..|p| - 1] else DirOf(p[..|p| - 1])
  }

  /** Joining a plain name onto a directory can be undone. */
  lemma {:induction false} SplitJoin(dir: string, name: string)
    requires '/' !in name
    ensures Base(Join(dir, name)) == name
    ensures DirOf(Join(dir, name)) == dir
  {
    if |name| > 0 {
      var p := Join(dir, name);
      assert p[..|p| - 1] == Join(dir, name[..|name| - 1]);
      SplitJoin(dir, name[..|name| - 1]);
    }
  }

  /** A name hash the store can place: long enough for both shard prefixes
      and free of separators (hashes are lower-case hexadecimal). */
  predicate PlaceableHash(h: string) {
    |h| >= 6 && '/' !in h
  }

  /** The store's view of one mailbox. The lock is represented by its key in
      the lock registry; `name` is "" when the mailbox was reached from its
      directory and the name is unknown. */
  datatype Mailbox = Mailbox(name: string, dirName: string, path: string, indexPath: string, lockKey: string)

  /** Same directory, same index file, same lock: two descriptors of one mailbox. */
  predicate SameStorage(a: Mailbox, b: Mailbox) {
    && a.dirName == b.dirName
    && a.path == b.path
    && a.indexPath == b.indexPath
    && a.lockKey == b.lockKey
  }

  /** `mboxFromHash`: the descriptor for the mailbox directory named `hash`.
      Go slices `hash[0:6]`, so a shorter hash is a run-time panic there.
      Go counts bytes where this model counts characters; the two agree on
      ASCII names, which every hex hash is. */
  function FromHash(mailPath: string, hash: string): (mb: Mailbox)
    requires |hash| >= 6
    ensures mb.name == ""
    ensures mb.dirName == hash && mb.lockKey == hash
    ensures |mb.path| == |mailPath| + 3 + 6 + |hash| + 3
    ensures mb.path[..|mailPath| + 1] == mailPath + "/"
  {
    var s1 := hash[0..3];
    var s2 := hash[0..6];
    var path := Join(Join(Join(mailPath, s1), s2), hash);
    assert path[..|mailPath| + 1] == mailPath + "/";
    Mailbox("", hash, path, Join(path, IndexFileName), hash)
  }

  /** The directory layout read back from the paths: the mailbox directory is
      named by the hash, sits in a directory named by the hash's first six
      characters, which sits in one named by its first three, directly under
      the mail root; the index file sits directly in the mailbox directory. */
  lemma {:induction false} MailboxLayout(mailPath: string, hash: string)
    requires PlaceableHash(hash)
    ensures var mb := FromHash(mailPath, hash);
      && Base(mb.path) == hash
      && Base(DirOf(mb.path)) == hash[..6]
      && Base(DirOf(DirOf(mb.path))) == hash[..3]
      && DirOf(DirOf(DirOf(mb.path))) == mailPath
      && Base(mb.indexPath) == IndexFileName
      && DirOf(mb.indexPath) == mb.path
      && hash[..3] <= hash[..6] <= hash
  {
    var s1, s2 := hash[..3], hash[..6];
    assert '/' !in s1 by { assert forall i :: 0 <= i < 3 ==> s1[i] == hash[i]; }
    assert '/' !in s2 by { assert forall i :: 0 <= i < 6 ==> s2[i] == hash[i]; }
    var d1 := Join(mailPath, s1);
    var d2 := Join(d1, s2);
    var path := Join(d2, hash);
    SplitJoin(mailPath, s1);
    SplitJoin(d1, s2);
    SplitJoin(d2, hash);
    SplitJoin(path, IndexFileName);
  }

  /** Two mailboxes share a lock key exactly when they share a directory. */
  lemma {:induction false} LockSharedIffSameDirectory(mailPath: string, h1: string, h2: string)
    requires PlaceableHash(h1) && PlaceableHash(h2)
    ensures FromHash(mailPath, h1).lockKey == FromHash(mailPath, h2).lockKey
        <==> FromHash(mailPath, h1).path == FromHash(mailPath, h2).path
  {
    MailboxLayout(mailPath, h1);
    MailboxLayout(mailPath, h2);
  }

  /** `mbox`: canonicalise the name with the policy parser (its error is
      passed through), hash it, and build the descriptor. The parser and the
      hash function are the store's foreign collaborators and are parameters
      here. */
  function Resolve(mailPath: string, mailbox: string,
                   parse: string -> Result<string, string>, hash: string -> string): (r: Result<Mailbox, string>)
    requires forall n :: |hash(n)| >= 6
    ensures r.Failure? <==> parse(mailbox).Failure?
    ensures r.Failure? ==> r.error == parse(mailbox).error
    ensures r.Success? ==> r.value.name == parse(mailbox).value
    ensures r.Success? ==> SameStorage(r.value, FromHash(mailPath, hash(r.value.name)))
  {
    match parse(mailbox)
    case Failure(e) => Failure(e)
    case Success(name) =>
      var h := hash(name);
      var s1 := h[0..3];
      var s2 := h[0..6];
      var path := Join(Join(Join(mailPath, s1), s2), h);
      Success(Mailbox(name, h, path, Join(path, IndexFileName), h))
  }
}

=== FILE: traversal.dfy ===
/** `Store.VisitMailboxes` (pkg/storage/file/fstore.go:172-215): a walk of
    the three-level shard tree under the mail root that hands each mailbox's
    record list to a visitor until the visitor asks to stop. Directory
    listings, index loads and the visitor's answers are inputs. */
module Traversal {
  import opened Results
  import opened Shards
  import opened FileStore

  /** One entry of a directory listing: its name, whether it is a
      directory, and what reading it as a directory yields. */
  datatype Entry = Entry(name: string, isDir: bool, listing: Listing)

  /** The result of `ioutil.ReadDir`: the entries in listing order, or the
      error the read failed with. */
  datatype Listing = Listed(entries: seq<Entry>) | Unreadable(error: string)

  /** What the walk meets, in order: a mailbox directory (named by its hash)
      or a directory it cannot read. */
  datatype Item = MailboxDir(hash: string) | ReadFailure(error: string)

  /** How a walk ended: it ran out of directories, the visitor asked to stop,
      a read or load failed, or `mboxFromHash` was given a name shorter than
      six characters (a slice-bounds panic in Go, where the bound is six
      bytes; the same for ASCII names). */
  datatype Stop = Exhausted | Stopped | Failed(error: string) | Panicked

  /** The visitor calls a walk made (each call's argument), and how it ended. */
  datatype Walk = Walk(calls: seq<seq<Record>>, stop: Stop)

  /** What `VisitMailboxes` returns: nil, an error, or (for a short
      directory name) no return at all but a panic. */
  datatype Outcome = Nil | Err(error: string) | Panic

  function Returned(stop: Stop): Outcome {
    match stop
    case Exhausted => Nil
    case Stopped => Nil
    case Failed(e) => Err(e)
    case Panicked => Panic
  }

  /** The items met under the entries `es`, `depth` levels above the
      mailbox directories, in order: non-directories are skipped, an
      unreadable directory is met as a failure. */
  function Items(es: seq<Entry>, depth: nat): seq<Item>
    decreases es
  {
    if |es| == 0 then [] else Items(es[..|es| - 1], depth) + EntryItems(es[|es| - 1], depth)
  }

  function EntryItems(e: Entry, depth: nat): seq<Item>
    decreases e
  {
    if !e.isDir then []
    else if depth <= 1 then [MailboxDir(e.name)]
    else match e.listing
      case Unreadable(err) => [ReadFailure(err)]
      case Listed(cs) => Items(cs, depth - 1)
  }

  /** The items met walking from the mail root. */
  function RootItems(root: Listing): seq<Item> {
    match root
    case Unreadable(err) => [ReadFailure(err)]
    case Listed(es) => Items(es, 3)
  }

  /** The item delivers the list `ms`: a mailbox directory whose name can be
      sliced into shards and whose index loads as `ms`. */
  predicate Delivers(mailPath: string, it: Item, load: string -> Result<seq<Record>, string>, ms: seq<Record>) {
    it.MailboxDir? && |it.hash| >= 6 && load(FromHash(mailPath, it.hash).indexPath) == Success(ms)
  }

  /** Processes the items in order after the visitor calls `calls`: a read
      failure or a failed index load ends the walk with that error; a
      mailbox's record list is passed to the visitor, and a `false` answer
      ends the walk. `load` is `getMessages` for the mailbox with that index
      path; `visit` answers a call given all the lists passed so far, this
      call's last. */
  function Run(mailPath: string, items: seq<Item>, load: string -> Result<seq<Record>, string>,
               visit: seq<seq<Record>> -> bool, calls: seq<seq<Record>>): (w: Walk)
    ensures calls <= w.calls
    ensures |w.calls| <= |calls| + |items|
    decreases |items|
  {
    if |items| == 0 then Walk(calls, Exhausted)
    else match items[0]
      case ReadFailure(err) => Walk(calls, Failed(err))
      case MailboxDir(h) =>
        if |h| < 6 then Walk(calls, Panicked)
        else match load(FromHash(mailPath, h).indexPath)
          case Failure(err) => Walk(calls, Failed(err))
          case Success(ms) =>
            if !visit(calls + [ms]) then Walk(calls + [ms], Stopped)
            else Run(mailPath, items[1..], load, visit, calls + [ms])
  }

  /** The calls a walk makes: the n-th call gets the list of the n-th item
      (so every item before the end was a mailbox whose index loaded), and
      every call but the last was answered `true`. */
  lemma {:induction false} RunCalls(mailPath: string, items: seq<Item>, load: string -> Result<seq<Record>, string>,
                                    visit: seq<seq<Record>> -> bool, calls: seq<seq<Record>>)
    ensures var w := Run(mailPath, items, load, visit, calls);
      && (forall k :: 0 <= k < |w.calls| - |calls| ==> Delivers(mailPath, items[k], load, w.calls[|calls| + k]))
      && (forall k :: |calls| < k < |w.calls| ==> visit(w.calls[..k]))
  {
    if |items| > 0 && items[0].MailboxDir? && |items[0].hash| >= 6 {
      var h := items[0].hash;
      match load(FromHash(mailPath, h).indexPath)
      case Failure(_) =>
      case Success(ms) =>
        if visit(calls + [ms]) {
          var c := calls + [ms];
          RunCalls(mailPath, items[1..], load, visit, c);
          var w := Run(mailPath, items[1..], load, visit, c);
          assert w.calls[..|c|] == c;
          assert forall k :: 0 <= k < |w.calls| - |c| ==> items[1..][k] == items[k + 1];
        }
    }
  }

  /** Why a walk ended, read off its result: it ends exhausted only after
      every item; it stops only on a `false` answer to its last call, and
      otherwise the last call (if any) was answered `true`; it fails or
      panics at the item after the last call, for that item's reason. */
  lemma {:induction false} RunEnds(mailPath: string, items: seq<Item>, load: string -> Result<seq<Record>, string>,
                                   visit: seq<seq<Record>> -> bool, calls: seq<seq<Record>>)
    ensures var w := Run(mailPath, items, load, visit, calls);
      var n := |w.calls| - |calls|;
      && (w.stop == Exhausted ==> n == |items|)
      && (w.stop == Stopped ==> n > 0 && !visit(w.calls))
      && (w.stop != Stopped && n > 0 ==> visit(w.calls))
      && (w.stop.Failed? ==>
            n < |items| &&
            (items[n] == ReadFailure(w.stop.error) ||
             (items[n].MailboxDir? && |items[n].hash| >= 6 &&
              load(FromHash(mailPath, items[n].hash).indexPath) == Failure(w.stop.error))))
      && (w.stop == Panicked ==> n < |items| && items[n].MailboxDir? && |items[n].hash| < 6)
  {
    if |items| > 0 && items[0].MailboxDir? && |items[0].hash| >= 6 {
      var h := items[0].hash;
      match load(FromHash(mailPath, h).indexPath)
      case Failure(_) =>
      case Success(ms) =>
        if visit(calls + [ms]) {
          var c := calls + [ms];
          RunEnds(mailPath, items[1..], load, visit, c);
          var w := Run(mailPath, items[1..], load, visit, c);
          var n := |w.calls| - |c|;
          if n < |items| - 1 {
            assert items[1..][n] == items[n + 1];
          }
        }
    }
  }

  /** When every item is a mailbox whose index loads and the visitor always
      continues, the visitor is called once per mailbox directory, in order,
      and the walk ends with nil. */
  lemma RunVisitsAll(mailPath: string, items: seq<Item>, load: string -> Result<seq<Record>, string>,
                     visit: seq<seq<Record>> -> bool)
    requires forall k :: 0 <= k < |items| ==> items[k].MailboxDir? && |items[k].hash| >= 6
    requires forall k :: 0 <= k < |items| ==> load(FromHash(mailPath, items[k].hash).indexPath).Success?
    requires forall h :: visit(h)
    ensures var w := Run(mailPath, items, load, visit, []);
      && w.stop == Exhausted
      && |w.calls| == |items|
      && forall k :: 0 <= k < |items| ==> load(FromHash(mailPath, items[k].hash).indexPath) == Success(w.calls[k])
  {
    RunCalls(mailPath, items, load, visit, []);
    RunEnds(mailPath, items, load, visit, []);
  }

  /** A visitor that answers `false` from its n-th call on is called at most
      n times, and a walk that reached its n-th call stopped there: a `false`
      answer ends the walk at once. */
  lemma {:induction false} VisitorStopsAt(mailPath: string, items: seq<Item>, load: string -> Result<seq<Record>, string>,
                                          visit: seq<seq<Record>> -> bool, n: nat)
    requires n >= 1
    requires forall h :: |h| >= n ==> !visit(h)
    ensures var w := Run(mailPath, items, load, visit, []);
      |w.calls| <= n && (|w.calls| == n ==> w.stop == Stopped)
  {
    RunCalls(mailPath, items, load, visit, []);
    RunEnds(mailPath, items, load, visit, []);
    var w := Run(mailPath, items, load, visit, []);
    if |w.calls| > n {
      assert visit(w.calls[..n]);
    }
  }

  /** Running two item sequences one after the other: the second runs only
      if the first was exhausted. */
  lemma {:induction false} RunAppend(mailPath: string, a: seq<Item>, b: seq<Item>,
                                     load: string -> Result<seq<Record>, string>,
                                     visit: seq<seq<Record>> -> bool, calls: seq<seq<Record>>)
    ensures var w := Run(mailPath, a, load, visit, calls);
      Run(mailPath, a + b, load, visit, calls) ==
        (if w.stop == Exhausted then Run(mailPath, b, load, visit, w.calls) else w)
  {
    if |a| > 0 {
      assert (a + b)[0] == a[0];
      assert (a + b)[1..] == a[1..] + b;
      match a[0]
      case ReadFailure(_) =>
      case MailboxDir(h) =>
        if |h| >= 6 {
          match load(FromHash(mailPath, h).indexPath)
          case Failure(_) =>
          case Success(ms) =>
            RunAppend(mailPath, a[1..], b, load, visit, calls + [ms]);
        }
    } else {
      assert a + b == b;
    }
  }

  /** Items of a concatenation of listings are the concatenated items. */
  lemma {:induction false} ItemsAppend(a: seq<Entry>, b: seq<Entry>, depth: nat)
    ensures Items(a + b, depth) == Items(a, depth) + Items(b, depth)
  {
    if |b| == 0 {
      assert a + b == a;
    } else {
      var ab := a + b;
      assert ab[..|ab| - 1] == a + b[..|b| - 1];
      assert ab[|ab| - 1] == b[|b| - 1];
      ItemsAppend(a, b[..|b| - 1], depth);
    }
  }

  /** The items of the first i + 1 entries: those of the first i, then
      those of entry i. */
  lemma ItemsSnoc(es: seq<Entry>, i: nat, depth: nat)
    requires i < |es|
    ensures Items(es[..i + 1], depth) == Items(es[..i], depth) + EntryItems(es[i], depth)
  {
    assert es[..i + 1][..i] == es[..i];
  }

  /** A walk that already ended stays ended, whatever items follow. */
  lemma RunEnded(mailPath: string, a: seq<Item>, b: seq<Item>, load: string -> Result<seq<Record>, string>,
                 visit: seq<seq<Record>> -> bool)
    requires Run(mailPath, a, load, visit, []).stop != Exhausted
    ensures Run(mailPath, a + b, load, visit, []) == Run(mailPath, a, load, visit, [])
  {
    RunAppend(mailPath, a, b, load, visit, []);
  }

  /** A walk that ended within the first `i` entries of a listing ended
      the same way over the whole listing. */
  lemma EndedInPrefix(mailPath: string, done: seq<Item>, es: seq<Entry>, i: nat, depth: nat,
                      load: string -> Result<seq<Record>, string>, visit: seq<seq<Record>> -> bool)
    requires i <= |es|
    requires Run(mailPath, done + Items(es[..i], depth), load, visit, []).stop != Exhausted
    ensures Run(mailPath, done + Items(es, depth), load, visit, [])
         == Run(mailPath, done + Items(es[..i], depth), load, visit, [])
  {
    ItemsAppend(es[..i], es[i..], depth);
    assert es[..i] + es[i..] == es;
    assert done + Items(es, depth) == done + Items(es[..i], depth) + Items(es[i..], depth);
    RunEnded(mailPath, done + Items(es[..i], depth), Items(es[i..], depth), load, visit);
  }

  /** One level of the walk: the loop over the listing `es`, `depth` levels
      above the mailbox directories (3 for the mail root's listing). `done`
      are the items already met and `calls0` the calls already made. The
      level makes the calls, and ends as, the run over its items; `ended`
      says the walk must return `result` at once. */
  method WalkLevel(mailPath: string, es: seq<Entry>, depth: nat,
                   load: string -> Result<seq<Record>, string>, visit: seq<seq<Record>> -> bool,
                   ghost done: seq<Item>, calls0: seq<seq<Record>>)
    returns (calls: seq<seq<Record>>, ended: bool, result: Outcome)
    requires 1 <= depth
    requires Run(mailPath, done, load, visit, []) == Walk(calls0, Exhausted)
    ensures var w := Run(mailPath, done + Items(es, depth), load, visit, []);
      && calls == w.calls
      && (ended <==> w.stop != Exhausted)
      && (ended ==> result == Returned(w.stop))
    decreases depth, 1
  {
    calls := calls0;
    assert done + Items(es[..0], depth) == done;
    var i := 0;
    while i < |es|
      invariant 0 <= i <= |es|
      invariant Run(mailPath, done + Items(es[..i], depth), load, visit, []) == Walk(calls, Exhausted)
    {
      ItemsSnoc(es, i, depth);
      assert done + Items(es[..i + 1], depth) == done + Items(es[..i], depth) + EntryItems(es[i], depth);
      calls, ended, result := WalkEntry(mailPath, es[i], depth, load, visit, done + Items(es[..i], depth), calls);
      if ended {
        EndedInPrefix(mailPath, done, es, i + 1, depth, load, visit);
        return;
      }
      i := i + 1;
    }
    assert es[..i] == es;
    ended, result := false, Nil;
  }

  /** One entry of a listing: a non-directory is skipped; at the last level
      a directory is a mailbox whose index is loaded and whose records go to
      the visitor; above it a directory is read and walked one level down. */
  method WalkEntry(mailPath: string, e: Entry, depth: nat,
                   load: string -> Result<seq<Record>, string>, visit: seq<seq<Record>> -> bool,
                   ghost before: seq<Item>, calls0: seq<seq<Record>>)
    returns (calls: seq<seq<Record>>, ended: bool, result: Outcome)
    requires 1 <= depth
    requires Run(mailPath, before, load, visit, []) == Walk(calls0, Exhausted)
    ensures var w := Run(mailPath, before + EntryItems(e, depth), load, visit, []);
      && calls == w.calls
      && (ended <==> w.stop != Exhausted)
      && (ended ==> result == Returned(w.stop))
    decreases depth, 0
  {
    calls, ended, result := calls0, false, Nil;
    if !e.isDir {
      assert before + EntryItems(e, depth) == before;
    } else if depth == 1 {
      RunAppend(mailPath, before, [MailboxDir(e.name)], load, visit, []);
      if |e.name| < 6 {
        return calls, true, Panic;
      }
      var mb := FromHash(mailPath, e.name);
      var loaded := load(mb.indexPath);
      if loaded.Failure? {
        return calls, true, Err(loaded.error);
      }
      calls := calls + [loaded.value];
      if !visit(calls) {
        return calls, true, Nil;
      }
    } else if e.listing.Unreadable? {
      RunAppend(mailPath, before, [ReadFailure(e.listing.error)], load, visit, []);
      return calls, true, Err(e.listing.error);
    } else {
      calls, ended, result := WalkLevel(mailPath, e.listing.entries, depth - 1, load, visit, before, calls);
    }
  }

  /** `VisitMailboxes`: read the mail root, then walk its three levels. It
      makes exactly the calls, and ends exactly as, the run over the
      flattened tree. */
  method VisitMailboxes(mailPath: string, root: Listing, load: string -> Result<seq<Record>, string>,
                        visit: seq<seq<Record>> -> bool) returns (calls: seq<seq<Record>>, result: Outcome)
    ensures var w := Run(mailPath, RootItems(root), load, visit, []);
      calls == w.calls && result == Returned(w.stop)
  {
    if root.Unreadable? {
      return [], Err(root.error);
    }
    var ended;
    assert [] + Items(root.entries, 3) == Items(root.entries, 3);
    calls, ended, result := WalkLevel(mailPath, root.entries, 3, load, visit, [], []);
    if !ended {
      result := Nil;
    }
  }
}
